=== FILE: README.md ===
# Animatch recommendation engine — a Dafny model

This project models the backend of Animatch, an anime recommender that uses
item-based collaborative filtering (`backend/main.py`). The model covers five parts:

- **Utility matrix builder** (`load_and_process_data`). It drops ratings equal to the
  sentinel `-1` and inner-joins the rating store with the anime catalog on `anime_id`.
  The result is the merged table `df_merged`. It then pivots that table into an
  item-name × user-id matrix, filling missing cells with 0, and computes the cosine
  similarity of every pair of item rows (`item_similarity_df`).
- **Recommender** (`get_recommendations` and the `/recomendar` guard). It anchors on
  the user's best-rated item and ranks every item by similarity to the anchor. It
  drops the anchor and everything the user rated, then keeps the first `num_recs`.
- **Accuracy evaluator** (`evaluate_accuracy`). It takes the user's ratings ≥ 7 and
  needs at least 5 of them. After a fixed shuffle it holds out the first fifth, scores
  every non-training item by rating-weighted similarity, and reports precision at N.
- **Matrix sampler** (`get_utility_matrix_sample`). It builds the utility matrix of the
  most active users and the most rated items.
- **Rebuild on append** (`add_rating`). It appends a record to the store and rebuilds
  all derived state from the whole store.

Layout, one module per file:

| file | module | models |
|---|---|---|
| `wrappers.dfy` | `Wrappers` | `Option`, `Result` |
| `seqs.dfy` | `Seqs` | `unique`, boolean-mask filters, `head`, `sum` on sequences |
| `ranking.dfy` | `Ranking` | descending sort (`sort_values`, `nlargest`) and top-N selection |
| `ratings.dfy` | `Ratings` | rating records, catalog, the filter-and-join into the merged table |
| `utility.dfy` | `Utility` | the pivot into the utility matrix |
| `similarity.dfy` | `Similarity` | cosine similarity and the similarity table |
| `snapshots.dfy` | `Snapshots` | the derived state (`df_merged` + `item_similarity_df`) and its rebuild |
| `recommender.dfy` | `Recommender` | `get_recommendations`, `recommend_for_user` |
| `evaluator.dfy` | `Evaluator` | `evaluate_accuracy` |
| `sampler.dfy` | `Sampler` | `get_utility_matrix_sample` |
| `service.dfy` | `Service` | the global state as class `Engine`: startup, reload, `add_rating` |
| `scenario.dfy` | `Scenario` | a worked four-rating example |

The three read operations are pure functions of a `Snapshot`, because the source
computes them from the current globals without changing anything. The globals and
their reassignment are the fields of class `Engine`. Its methods `Reload` and
`AddRating` replace the whole snapshot at once, or leave it as it was when the
reload fails before touching it (a missing or unparseable file). The source swaps
its two globals one after the other; see "## Left out".

Behaviour worth knowing, as the code has it:

- **Zero rows in the similarity matrix.** sklearn's `cosine_similarity` scales a
  zero-norm row by 1, so an all-zero row has similarity 0 with everything,
  itself included, rather than 1.0 on the diagonal (`Similarity.ZeroRowSimilarity`).
- **Order of recommendations.** Recommendations come in non-increasing similarity;
  ties are allowed, so the order is not strictly descending.
- **Number of recommendations.** The `/recomendar` endpoint always asks for 5. It
  does not pass a `num_recs` through.
- **Failed `add_rating`.** The line is appended to the store before the reload. When
  the reload fails on a missing catalog, the appended record stays in the store and
  the old model stays in place (`Service.Engine.AddRating`).
- **Appending to a missing store.** The append creates the file without its header
  row. pandas then reads the first record as the header, the `rating` column is
  missing, and every later load fails (`Service.RatingStore`, `Service.Appended`).
- **Duplicate (user, item) ratings.** These are averaged by the pivot's default mean
  aggregation (`Utility.PivotCell`).
- **`num_recs = 0` in the evaluator.** This fails with a division by zero
  (`Evaluator.Evaluate` returns `Err(DivisionByZero)`).

## Model

| member | source | states |
|---|---|---|
| `Ratings.Merge` | backend/main.py:34-35 | the -1 filter and the inner join with the catalog, in store order; its own contract says only that the merged table is no longer than the store; `Ratings.MergeMembers`, `Ratings.MergeSound` and `Ratings.MergeAppend` state what it keeps |
| `Ratings.MergeMembers` | backend/main.py:34-35 | a row is in the merged table iff some stored record has a rating other than -1, has its `anime_id` in the catalog, and the row carries that record's user, rating and catalog name |
| `Ratings.MergeSound` | backend/main.py:34-35 | no merged row carries the sentinel -1, and every merged name is a catalog name |
| `Ratings.MergeAppend` | backend/main.py:127-131 | rebuilding after one appended record gives the old merged table followed by that record's row, when the record survives the filter and the join |
| `Utility.Pivot` | backend/main.py:37-39 | row labels are exactly the distinct merged names and column labels exactly the distinct merged user ids, each once; every row has a cell for every column |
| `Utility.PivotCell` | backend/main.py:37-39 | every cell is the mean of that user's ratings of that item, or 0 when there are none |
| `Utility.PivotUnratedCellIsZero` | backend/main.py:37-39 | a (name, user) pair with no merged rating reads 0 |
| `Utility.PivotCellZeroIff` | backend/main.py:37-39 | with positive ratings, a cell is 0 iff the user has no rating for that item |
| `Similarity.Norm` | backend/main.py:42 | the scaling norm of a row is never 0: a zero norm is replaced by 1 |
| `Similarity.Dot` | backend/main.py:42 | the dot product of two item rows over the user columns; no contract of its own; `Similarity.DotSymmetric` states it |
| `Similarity.Cosine` | backend/main.py:42 | `cosine_similarity` of two rows, the dot product over the product of the zero-safe norms; no contract of its own; `Similarity.CosineSymmetric`, `Similarity.ZeroRowSimilarity` and `Similarity.SelfSimilarity` state it |
| `Similarity.DotSymmetric` | backend/main.py:42 | the dot product of two item rows is symmetric |
| `Similarity.CosineSymmetric` | backend/main.py:42 | cosine similarity is symmetric for any square root |
| `Similarity.ZeroRowSimilarity` | backend/main.py:42 | an all-zero row has similarity 0 to every row, itself included |
| `Similarity.SelfSimilarity` | backend/main.py:42 | a row with non-zero norm has self-similarity 1 when the square root is exact |
| `Similarity.SimilarityTable` | backend/main.py:41-45 | the similarity table is indexed by the matrix's row labels on both axes |
| `Similarity.SimilarityTableSymmetric` | backend/main.py:41-45 | `sim[a][b] == sim[b][a]` for all names |
| `Snapshots.Build` | backend/main.py:25-45 | `load_and_process_data` after its file reads: merge, pivot, similarity table; no contract of its own; `Snapshots.BuildValid` states it |
| `Snapshots.BuildValid` | backend/main.py:25-45 | a rebuilt state has a repetition-free item index equal to the merged names, a table over exactly that index, and a symmetric table |
| `Ranking.Insert` | backend/main.py:68 | inserting into a ranking adds exactly that element |
| `Ranking.InsertSorted` | backend/main.py:68 | inserting keeps a ranking in non-increasing score order |
| `Ranking.SortDesc` | backend/main.py:68 | the descending sort is a permutation in non-increasing score order |
| `Ranking.SortDescMembers` | backend/main.py:68 | sorting neither adds nor loses items |
| `Ranking.SortDescDistinct` | backend/main.py:68 | sorting a repetition-free sequence keeps it repetition-free |
| `Ranking.ExcludeSorted` | backend/main.py:71 | the boolean-mask filter keeps the order of what remains |
| `Ranking.TakeIsTop` | backend/main.py:71 | `head(n)` of a ranking keeps the n best: an item is left out only when n were kept, and nothing left out scores above a kept item |
| `Recommender.UserRows` | backend/main.py:62 | the user's rows are exactly the merged rows with that user id |
| `Recommender.FirstMaxIndex` | backend/main.py:66 | `idxmax` gives a row holding the maximum rating, with every earlier row strictly lower |
| `Recommender.Anchor` | backend/main.py:62-66 | no anchor iff the user has no merged rows; otherwise the anchor is a name the user rated with their maximum rating |
| `Recommender.AnchorRated` | backend/main.py:62-66 | the anchor is a name the user rated, so the watched-list drop would also remove it |
| `Recommender.AnchorIndexed` | backend/main.py:62-66 | in a rebuilt state the anchor is an item of the similarity index |
| `Recommender.SimColumn` | backend/main.py:67 | the column `item_similarity_df[best]`; no contract of its own; `Recommender.AnchorColumn` states it |
| `Recommender.AnchorColumn` | backend/main.py:67 | the column read `item_similarity_df[best]` succeeds, covers exactly the indexed items, and equals the anchor's own row of similarities |
| `Recommender.CandidatesDistinct` | backend/main.py:67-71 | after sorting and both drops, the candidate list has no repetitions |
| `Recommender.Watched` | backend/main.py:70 | the names in the user's rows; no contract of its own; `Recommender.WatchedIsRated` states it |
| `Recommender.WatchedIsRated` | backend/main.py:70 | the watched list holds exactly the names the user rated |
| `Recommender.Candidates` | backend/main.py:67-71 | the index sorted by similarity to the anchor, with the anchor and the watched names dropped; no contract of its own; `Recommender.CandidatesMembers`, `Recommender.CandidatesDistinct` and `Recommender.CandidatesEmptyIff` state it |
| `Recommender.CandidatesMembers` | backend/main.py:67-71 | a candidate is an indexed item that is neither the anchor nor rated by the user, and every such item is a candidate |
| `Recommender.Recommend` | backend/main.py:60-73 | `get_recommendations`: `[]` without an anchor, else the first `num_recs` candidates; no contract of its own; `Recommender.RecommendUnknownUser`, `Recommender.RecommendExcludesSeen` and `Recommender.RecommendIsTop` state it |
| `Recommender.RecommendUnknownUser` | backend/main.py:62-64 | a user without merged rows gets the empty list |
| `Recommender.RecommendExcludesSeen` | backend/main.py:60-73 | recommendations contain neither the anchor nor any rated name, have no duplicates, and number at most `num_recs` |
| `Recommender.RecommendIsTop` | backend/main.py:67-73 | recommendations are in non-increasing similarity to the anchor; an unrated item other than the anchor is left out only when `num_recs` were returned, and never scores above a recommended one |
| `Recommender.RecommendForUser` | backend/main.py:76-84 | "user not found" iff the user has no merged rows; "no recommendations" iff the user exists and the list of 5 is empty; otherwise the non-empty list of 5 |
| `Recommender.CandidatesEmptyIff` | backend/main.py:67-71 | with a rated anchor, the candidate list is empty iff the user rated every indexed item |
| `Recommender.NoRecommendationsIff` | backend/main.py:79-83 | "no recommendations" iff the user exists and has rated every item of the index |
| `Evaluator.Positives` | backend/main.py:90-91 | the positives are exactly the user's rows rated ≥ 7, each as many times as it occurs in the table, so `len(high_rated)` counts duplicates |
| `Evaluator.Shuffled` | backend/main.py:94 | the shuffle is a permutation of the positives |
| `Evaluator.HoldoutSize` | backend/main.py:95-96 | for n ≥ 5 the holdout is n/5 (integer division), so at least 1 and below n; the `== 0` fallback is not reached |
| `Evaluator.GroundTruth` | backend/main.py:97 | `iloc[:holdout_size]`; no contract of its own; `Evaluator.HoldoutPartition` and `Evaluator.SplitParts` state it |
| `Evaluator.Training` | backend/main.py:98 | `iloc[holdout_size:]`; no contract of its own; `Evaluator.HoldoutPartition` and `Evaluator.SplitParts` state it |
| `Evaluator.HoldoutPartition` | backend/main.py:94-98 | ground truth then training is the shuffled sequence; together they are exactly the positives; the ground truth has n/5 rows; training is non-empty |
| `Evaluator.SplitParts` | backend/main.py:95-98 | cutting any rearrangement of the positives after `n/5` rows gives ground truth and training that together are exactly the positives |
| `Evaluator.ShuffledArePositive` | backend/main.py:91-94 | every shuffled row is one of the user's rows rated ≥ 7 |
| `Evaluator.NormaliserPositive` | backend/main.py:100-102 | `sum(train_ratings)` is at least 7·\|train\|, so the division is defined |
| `Evaluator.WeightedSum` | backend/main.py:101-102 | the training items' similarities to an item, weighted by their ratings, summed; no contract of its own; it is the score `Evaluator.RankedIsTop` orders by |
| `Evaluator.WeightedScores` | backend/main.py:101-103 | the weighted sums divided by the sum of training ratings, one per indexed item; no contract of its own; `Evaluator.NormaliserPositive` shows the division is defined and `Evaluator.RankedIsTop` states the ranking by it |
| `Evaluator.Ranked` | backend/main.py:101-104 | the non-training items ordered by weighted score, first `num_recs` kept (`nlargest`); no contract of its own; `Evaluator.RankedIsTop`, `Evaluator.EvaluateRecommendations` and `Evaluator.EvaluateUsesRanking` state it |
| `Evaluator.RankedIsTop` | backend/main.py:101-104 | the ranked items contain no training name and no duplicate, number at most `num_recs`, come in non-increasing weighted score, and are the top scorers among non-training items: one is left out only when `num_recs` were ranked, and then scores no more than any ranked item |
| `Evaluator.EvaluateRecommendations` | backend/main.py:98-104 | for the evaluator's own training set the normaliser is positive and the ranking has all the properties above, the top-N clauses included |
| `Evaluator.EvaluateUsesRanking` | backend/main.py:104-105 | a report's recommendations are that ranking of the training set |
| `Evaluator.EvaluateGroundTruth` | backend/main.py:97-111 | a report's ground truth is the names of the held-out rows |
| `Evaluator.Evaluate` | backend/main.py:88-116 | error "insufficient positives" iff fewer than 5 ratings ≥ 7 (and then no report); a division error iff `num_recs` is 0; otherwise hits count recommended names in the ground truth, hits ≤ \|recommendations\| ≤ `num_recs`, and accuracy is exactly hits / `num_recs`, within [0, 1] |
| `Sampler.Counts` | backend/main.py:145-148 | the tally has an entry for exactly the values present, each holding that value's number of occurrences |
| `Sampler.MostFrequent` | backend/main.py:145-148 | `value_counts().nlargest(k).index`; no contract of its own; `Sampler.MostFrequentIsTop` states it |
| `Sampler.MostFrequentIsTop` | backend/main.py:145-148 | at most k values, each once and each present in the table; a value is left out only when k were chosen, and then occurs no more often than any chosen one |
| `Sampler.SampleRows` | backend/main.py:151-154 | the sample keeps exactly the merged rows whose user and item were both chosen |
| `Sampler.Sample` | backend/main.py:139-159 | `get_utility_matrix_sample`: the pivot of the merged rows whose user and item are among the most frequent; no contract of its own; `Sampler.SampleBounds` and `Sampler.SampleCellsAgree` state it |
| `Sampler.SampleColumnLabels` | backend/main.py:151-159 | every sample column is a chosen user present in the merged table |
| `Sampler.SampleRowLabels` | backend/main.py:151-159 | every sample row is a chosen item present in the merged table |
| `Sampler.SampleBounds` | backend/main.py:139-159 | at most `num_users` columns and `num_animes` rows, each label occurring in the merged table |
| `Sampler.SampleCellsAgree` | backend/main.py:157-159 | every sample cell equals the same cell of the full utility matrix |
| `Service.Appended` | backend/main.py:126-128 | appending keeps a parsed store parsed with the record added at its end; appending to a missing or header-less file yields a header-less one |
| `Service.Engine.constructor` | backend/main.py:53-56 | startup loads the model when the catalog exists and the store has its header, and leaves no model (a process that never serves) otherwise |
| `Service.Engine.Reload` | backend/main.py:25-45 | succeeds iff both files exist and the store has its header; then the whole state is replaced by a rebuild from them, otherwise it is unchanged |
| `Service.Engine.AddRating` | backend/main.py:120-135 | the record is appended to the store; the model is rebuilt from the whole store iff the store already held records and the catalog exists, and otherwise stays as it was |
| `Service.AddedUserIsFound` | backend/main.py:120-131 | after appending a surviving rating of a new user and rebuilding, the endpoint no longer answers "user not found" |
| `Scenario.ScenarioMerge` | backend/main.py:34-35 | four ratings over items A, B, C merge into four named rows |
| `Scenario.ScenarioMatrix` | backend/main.py:37-39 | the example's matrix has rows A, B, C and columns 1, 2 |
| `Scenario.ScenarioAnchor` | backend/main.py:66 | user 1's anchor is A, rated 8 |
| `Scenario.ScenarioRecommend` | backend/main.py:60-73 | asked for 2, user 1 gets exactly [C], whatever the similarities |

## Left out

- HTTP routing, the pydantic `Rating` model, the `HTTPException` wrapping (a failed
  `add_rating` is a `false` result), the JSON export `to_json(orient='split')` and the `print`.
- File I/O. The catalog is an `Option` value, present with its parsed contents or
  missing; the rating store is missing, header-less or parsed records. CSV parsing and
  malformed lines are not modelled.
- Floating point. Cells and similarities are exact reals, and the square root is a
  parameter of the model. That similarities lie in [0, 1] (Cauchy–Schwarz) is not proved.
- The pandas pseudo-random shuffle with `random_state=42`. It is a parameter, required
  to be a permutation; because it is a function, the same input always gives the same
  split.
- `int(n * 0.2)` is modelled as `n / 5`. The two agree for every n below 2^53.
- Tie-breaking. `sort_values` may order equal scores either way; the model uses a
  stable sort, which is one valid outcome and is exactly `nlargest`'s `keep='first'`.
  Results are stated up to ties.
- Label order. pandas sorts the pivot's row and column labels; the model keeps
  first-appearance order. This changes only the order of tied items and the display
  order of the sample.
- Negative `num_recs`, `num_users` or `num_animes`, which pandas' `head`/`nlargest`
  treat specially. The counts are `nat`.
- A catalog with repeated `anime_id`s, which the join would multiply. The catalog is a map.
- sklearn raising on an empty matrix. The model yields an empty similarity table
  instead. In the source, `df_merged` has already been replaced (main.py line 35) when
  that error is raised, so the source is left with a new merged table beside the old
  similarity table.
- Concurrency. FastAPI serves the plain `def` endpoints on a thread pool, and
  `load_and_process_data` assigns `df_merged` (line 35) before computing and assigning
  `item_similarity_df` (lines 41-45). A request served during a rebuild can therefore
  see the new merged table with the old similarity table, and fail with a `KeyError`
  at line 67 when the anchor is a newly rated name.
- `Service.Engine.Reload` replaces the whole snapshot in one step. That is stronger than
  the source, which swaps the two globals non-atomically, as described above.

=== FILE: evaluator.dfy ===
/**
 * `evaluate_accuracy`: hold out a fifth of the user's positive ratings,
 * score every other item by the rating-weighted similarity to the rest, and
 * report how many of the top `numRecs` items were held out (precision at N).
 */
module Evaluator {
  import opened Wrappers
  import opened Seqs
  import opened Ranking
  import opened Ratings
  import opened Similarity
  import opened Snapshots

  /** Ratings at or above this value are positive. */
  const PositiveThreshold: int := 7
  /** Fewer positive ratings than this is an error. */
  const MinPositives: nat := 5

  /** The user's positive rows, in table order, each as often as it occurs in the table. */
  function Positives(m: seq<MergedRating>, user: int): (r: seq<MergedRating>)
    ensures forall x :: x in r <==> x in m && x.userId == user && x.rating >= PositiveThreshold
    ensures forall x :: multiset(r)[x] == if x.userId == user && x.rating >= PositiveThreshold then multiset(m)[x] else 0
  {
    if m == [] then []
    else
      assert m == [m[0]] + m[1..];
      (if m[0].userId == user && m[0].rating >= PositiveThreshold then [m[0]] else [])
      + Positives(m[1..], user)
  }

  /**
   * The fixed-seed shuffle, given as any function that rearranges every
   * sequence without adding or losing rows. Being a function, it returns the
   * same order for the same input.
   */
  ghost predicate IsShuffle(shuffle: seq<MergedRating> -> seq<MergedRating>) {
    forall s :: multiset(shuffle(s)) == multiset(s)
  }

  /**
   * `int(n * 0.2)`, raised to 1 when it is 0. For the sizes the evaluator
   * reaches (at least 5) it is `n / 5`, at least 1 and below `n`.
   */
  function HoldoutSize(n: nat): (h: nat)
    ensures h >= 1
    ensures n >= MinPositives ==> h == n / 5 && h < n
  {
    var h := n / 5;
    if h == 0 then 1 else h
  }

  function Shuffled(s: Snapshot, user: int, shuffle: seq<MergedRating> -> seq<MergedRating>): (sh: seq<MergedRating>)
    requires IsShuffle(shuffle)
    ensures multiset(sh) == multiset(Positives(s.merged, user))
    ensures |sh| == |Positives(s.merged, user)|
  {
    var sh := shuffle(Positives(s.merged, user));
    assert |multiset(sh)| == |sh|;
    sh
  }

  /** The held-out rows: the first `HoldoutSize` of the shuffled positives. */
  function GroundTruth(sh: seq<MergedRating>): seq<MergedRating>
    requires |sh| >= MinPositives
  {
    sh[..HoldoutSize(|sh|)]
  }

  /** The training rows: the shuffled positives after the held-out ones. */
  function Training(sh: seq<MergedRating>): seq<MergedRating>
    requires |sh| >= MinPositives
  {
    sh[HoldoutSize(|sh|)..]
  }

  /** The rows' names, in order. */
  function NameList(rows: seq<MergedRating>): seq<string> {
    seq(|rows|, i requires 0 <= i < |rows| => rows[i].name)
  }

  /** The rows' ratings, in order. */
  function RatingList(rows: seq<MergedRating>): seq<int> {
    seq(|rows|, i requires 0 <= i < |rows| => rows[i].rating)
  }

  /** The similarity of `c` to each training item, weighted by that item's rating, summed. */
  function WeightedSum(t: SimTable, train: seq<MergedRating>, c: string): real {
    if train == [] then 0.0
    else Sim(t, train[0].name, c) * (train[0].rating as real) + WeightedSum(t, train[1..], c)
  }

  /** Each item's weighted sum divided by the sum of the training ratings. */
  function WeightedScores(s: Snapshot, train: seq<MergedRating>): map<string, real>
    requires Sum(RatingList(train)) > 0
  {
    var total := Sum(RatingList(train)) as real;
    map c | c in s.items :: WeightedSum(s.similarity, train, c) / total
  }

  /** The top `numRecs` items by weighted score among those not in the training set. */
  function Ranked(s: Snapshot, train: seq<MergedRating>, numRecs: nat): seq<string>
    requires Sum(RatingList(train)) > 0
  {
    var scores := WeightedScores(s, train);
    Take(SortDesc(Exclude(s.items, Elems(NameList(train))), scores), numRecs)
  }

  datatype Report = Report(
    userId: int,
    groundTruth: seq<string>,
    recommendations: seq<string>,
    hits: nat,
    totalRecommendations: nat,
    accuracy: real)

  datatype EvalError = InsufficientPositives | DivisionByZero

  /** Every shuffled positive is a positive row of the user. */
  lemma ShuffledArePositive(s: Snapshot, user: int, shuffle: seq<MergedRating> -> seq<MergedRating>)
    requires IsShuffle(shuffle)
    ensures forall x :: x in Shuffled(s, user, shuffle) ==>
              x in s.merged && x.userId == user && x.rating >= PositiveThreshold
  {
    var sh := Shuffled(s, user, shuffle);
    forall x | x in sh ensures x in Positives(s.merged, user) {
      assert x in multiset(sh);
    }
  }

  /** The normaliser, the sum of the training ratings, is at least 7 per training row, so positive. */
  lemma NormaliserPositive(s: Snapshot, user: int, shuffle: seq<MergedRating> -> seq<MergedRating>)
    requires IsShuffle(shuffle)
    requires |Positives(s.merged, user)| >= MinPositives
    ensures var train := Training(Shuffled(s, user, shuffle));
      Sum(RatingList(train)) >= PositiveThreshold * |train| > 0
  {
    var sh := Shuffled(s, user, shuffle);
    var train := Training(sh);
    ShuffledArePositive(s, user, shuffle);
    assert forall i :: 0 <= i < |train| ==> train[i] in sh;
    SumLowerBound(RatingList(train), PositiveThreshold);
  }

  lemma RatioAtMostOne(a: nat, b: nat)
    requires 0 < b && a <= b
    ensures 0.0 <= (a as real) / (b as real) <= 1.0
  {
  }

  /**
   * The report, or the error: too few positive ratings is reported as such
   * before anything else; a request for zero recommendations fails on the
   * division. A report counts the recommended names that were held out and
   * divides them by the requested number, so its accuracy lies in [0, 1].
   */
  function Evaluate(s: Snapshot, user: int, numRecs: nat, shuffle: seq<MergedRating> -> seq<MergedRating>)
    : (r: Result<Report, EvalError>)
    requires IsShuffle(shuffle)
    ensures r == Err(InsufficientPositives) <==> |Positives(s.merged, user)| < MinPositives
    ensures r == Err(DivisionByZero) <==> |Positives(s.merged, user)| >= MinPositives && numRecs == 0
    ensures r.Ok? ==>
              && r.value.userId == user
              && r.value.totalRecommendations == numRecs
              && r.value.hits <= |r.value.recommendations| <= numRecs
              && r.value.hits == |Select(r.value.recommendations, Elems(r.value.groundTruth))|
              && r.value.accuracy == (r.value.hits as real) / (numRecs as real)
              && 0.0 <= r.value.accuracy <= 1.0
  {
    if |Positives(s.merged, user)| < MinPositives then Err(InsufficientPositives)
    else
      var sh := Shuffled(s, user, shuffle);
      var groundTruth := NameList(GroundTruth(sh));
      var train := Training(sh);
      NormaliserPositive(s, user, shuffle);
      var recs := Ranked(s, train, numRecs);
      var hits := |Select(recs, Elems(groundTruth))|;
      if numRecs == 0 then Err(DivisionByZero)
      else
        RatioAtMostOne(hits, numRecs);
        Ok(Report(user, groundTruth, recs, hits, numRecs, (hits as real) / (numRecs as real)))
  }

  /**
   * The split: the held-out rows and the training rows, in that order, make
   * up the shuffled positives; together they are exactly the user's positive
   * rows; a fifth of them (rounded down) are held out and at least one row is
   * left for training.
   */
  lemma HoldoutPartition(s: Snapshot, user: int, shuffle: seq<MergedRating> -> seq<MergedRating>)
    requires IsShuffle(shuffle)
    requires |Positives(s.merged, user)| >= MinPositives
    ensures var sh := Shuffled(s, user, shuffle);
      && GroundTruth(sh) + Training(sh) == sh
      && multiset(GroundTruth(sh)) + multiset(Training(sh)) == multiset(Positives(s.merged, user))
      && |GroundTruth(sh)| == |Positives(s.merged, user)| / 5 >= 1
      && |Training(sh)| >= 1
  {
    SplitParts(Shuffled(s, user, shuffle), Positives(s.merged, user));
  }

  /** Splitting a rearrangement of `p` after its first fifth partitions `p`. */
  lemma SplitParts(sh: seq<MergedRating>, p: seq<MergedRating>)
    requires |sh| == |p| >= MinPositives
    requires multiset(sh) == multiset(p)
    ensures GroundTruth(sh) + Training(sh) == sh
    ensures multiset(GroundTruth(sh)) + multiset(Training(sh)) == multiset(p)
    ensures |GroundTruth(sh)| == |p| / 5 >= 1 && |Training(sh)| >= 1
  {
    assert GroundTruth(sh) + Training(sh) == sh;
  }

  /** A report's ground truth is the names of the held-out rows. */
  lemma EvaluateGroundTruth(s: Snapshot, user: int, numRecs: nat, shuffle: seq<MergedRating> -> seq<MergedRating>)
    requires IsShuffle(shuffle)
    requires Evaluate(s, user, numRecs, shuffle).Ok?
    ensures var sh := Shuffled(s, user, shuffle);
      |sh| >= MinPositives && Evaluate(s, user, numRecs, shuffle).value.groundTruth == NameList(GroundTruth(sh))
  {
  }

  /**
   * The ranking holds items of the index that are not training items,
   * without repetitions, at most `numRecs`, in non-increasing weighted score,
   * and the best-scoring such items: an item is left out only when `numRecs`
   * were kept, and it scores no more than any ranked one.
   */
  lemma RankedIsTop(s: Snapshot, train: seq<MergedRating>, numRecs: nat)
    requires Distinct(s.items)
    requires Sum(RatingList(train)) > 0
    ensures var scores := WeightedScores(s, train);
      var r := Ranked(s, train, numRecs);
      && |r| <= numRecs
      && Distinct(r)
      && (forall x :: x in r ==> x in s.items && x !in NameList(train))
      && (forall i, j :: 0 <= i < j < |r| ==> Score(scores, r[i]) >= Score(scores, r[j]))
      && (forall x :: x in s.items && x !in NameList(train) && x !in r ==> |r| == numRecs)
      && (forall x, y :: x in s.items && x !in NameList(train) && x !in r && y in r ==>
            |r| == numRecs && Score(scores, y) >= Score(scores, x))
  {
    var scores := WeightedScores(s, train);
    var pool := Exclude(s.items, Elems(NameList(train)));
    ExcludeDistinct(s.items, Elems(NameList(train)));
    SortDescDistinct(pool, scores);
    SortDescMembers(pool, scores);
    TakeIsTop(SortDesc(pool, scores), scores, numRecs);
  }

  /** For the evaluator's own training set, the normaliser is positive and the ranking is the top. */
  lemma EvaluateRecommendations(s: Snapshot, user: int, numRecs: nat, shuffle: seq<MergedRating> -> seq<MergedRating>)
    requires Valid(s)
    requires IsShuffle(shuffle)
    requires |Positives(s.merged, user)| >= MinPositives
    ensures var train := Training(Shuffled(s, user, shuffle));
      Sum(RatingList(train)) > 0 &&
      var r := Ranked(s, train, numRecs);
      && |r| <= numRecs
      && Distinct(r)
      && (forall x :: x in r ==> x in s.items && x !in NameList(train))
      && (forall i, j :: 0 <= i < j < |r| ==>
            Score(WeightedScores(s, train), r[i]) >= Score(WeightedScores(s, train), r[j]))
      && (forall x :: x in s.items && x !in NameList(train) && x !in r ==> |r| == numRecs)
      && (forall x, y :: x in s.items && x !in NameList(train) && x !in r && y in r ==>
            Score(WeightedScores(s, train), y) >= Score(WeightedScores(s, train), x))
  {
    NormaliserPositive(s, user, shuffle);
    RankedIsTop(s, Training(Shuffled(s, user, shuffle)), numRecs);
  }

  /** The report's recommendations are those rankings. */
  lemma EvaluateUsesRanking(s: Snapshot, user: int, numRecs: nat, shuffle: seq<MergedRating> -> seq<MergedRating>)
    requires IsShuffle(shuffle)
    requires Evaluate(s, user, numRecs, shuffle).Ok?
    ensures |Positives(s.merged, user)| >= MinPositives
    ensures var train := Training(Shuffled(s, user, shuffle));
      Sum(RatingList(train)) > 0 &&
      Evaluate(s, user, numRecs, shuffle).value.recommendations == Ranked(s, train, numRecs)
  {
    NormaliserPositive(s, user, shuffle);
  }
}

=== FILE: ranking.dfy ===
/**
 * Descending ranking by a score table, standing for `sort_values(ascending=False)`
 * followed by `head(n)` and for `nlargest(n)`. The sort is stable: among equal
 * scores the earlier element stays first, which is exactly `nlargest`'s
 * `keep='first'` and one of the orders `sort_values` may produce.
 */
module Ranking {
  import opened Seqs

  /** The score of `x`; a name outside the table scores 0. */
  function Score<T>(scores: map<T, real>, x: T): real {
    if x in scores then scores[x] else 0.0
  }

  /** Scores never increase from left to right (ties allowed). */
  predicate SortedDesc<T>(s: seq<T>, scores: map<T, real>) {
    forall i, j :: 0 <= i < j < |s| ==> Score(scores, s[i]) >= Score(scores, s[j])
  }

  /** Puts `x` in front of the first element that does not score above it. */
  function Insert<T>(x: T, s: seq<T>, scores: map<T, real>): (r: seq<T>)
    ensures multiset(r) == multiset(s) + multiset{x}
  {
    if s == [] || Score(scores, x) >= Score(scores, s[0]) then [x] + s
    else
      assert s == [s[0]] + s[1..];
      [s[0]] + Insert(x, s[1..], scores)
  }

  lemma {:induction false} InsertSorted<T>(x: T, s: seq<T>, scores: map<T, real>)
    requires SortedDesc(s, scores)
    ensures SortedDesc(Insert(x, s, scores), scores)
  {
    if s == [] || Score(scores, x) >= Score(scores, s[0]) {
    } else {
      var t := Insert(x, s[1..], scores);
      InsertSorted(x, s[1..], scores);
      forall y | y in t ensures Score(scores, s[0]) >= Score(scores, y) {
        assert y in multiset(t);
        if y != x {
          assert y in multiset(s[1..]);
        }
      }
    }
  }

  /** `s` rearranged so that scores never increase. */
  function SortDesc<T>(s: seq<T>, scores: map<T, real>): (r: seq<T>)
    ensures SortedDesc(r, scores)
    ensures multiset(r) == multiset(s)
  {
    if s == [] then []
    else
      assert s == [s[0]] + s[1..];
      InsertSorted(s[0], SortDesc(s[1..], scores), scores);
      Insert(s[0], SortDesc(s[1..], scores), scores)
  }

  /** Sorting neither adds nor loses elements. */
  lemma SortDescMembers<T>(s: seq<T>, scores: map<T, real>)
    ensures forall x :: x in SortDesc(s, scores) <==> x in s
  {
    var r := SortDesc(s, scores);
    forall x ensures x in r <==> x in s {
      assert x in r <==> x in multiset(r);
      assert x in s <==> x in multiset(s);
    }
  }

  /** A repetition-free sequence stays repetition-free when sorted. */
  lemma SortDescDistinct<T>(s: seq<T>, scores: map<T, real>)
    requires Distinct(s)
    ensures Distinct(SortDesc(s, scores))
  {
    var r := SortDesc(s, scores);
    if !Distinct(r) {
      var i, j :| 0 <= i < j < |r| && r[i] == r[j];
      MultisetCountAtLeastTwo(r, i, j);
      DistinctCountAtMostOne(s, r[i]);
      assert false;
    }
  }

  lemma MultisetCountAtLeastTwo<T>(s: seq<T>, i: int, j: int)
    requires 0 <= i < j < |s| && s[i] == s[j]
    ensures multiset(s)[s[i]] >= 2
  {
    assert s == s[..i] + [s[i]] + s[i + 1..j] + [s[j]] + s[j + 1..];
  }

  lemma {:induction false} DistinctCountAtMostOne<T>(s: seq<T>, x: T)
    requires Distinct(s)
    ensures multiset(s)[x] <= 1
  {
    if s != [] {
      assert s == [s[0]] + s[1..];
      DistinctCountAtMostOne(s[1..], x);
      assert s[0] !in s[1..];
    }
  }

  /** Dropping elements keeps a descending order descending. */
  lemma {:induction false} ExcludeSorted<T(!new)>(s: seq<T>, xs: set<T>, scores: map<T, real>)
    requires SortedDesc(s, scores)
    ensures SortedDesc(Exclude(s, xs), scores)
  {
    if s != [] {
      ExcludeSorted(s[1..], xs, scores);
      var t := Exclude(s[1..], xs);
      forall y | y in t ensures Score(scores, s[0]) >= Score(scores, y) {
        var k :| 1 <= k < |s| && s[k] == y;
      }
    }
  }

  /**
   * The first `n` of a descending sequence are its top `n`: an element is
   * left out only when `n` elements were kept, and each kept element scores
   * at least as much as each left-out one.
   */
  lemma TakeIsTop<T>(s: seq<T>, scores: map<T, real>, n: nat)
    requires SortedDesc(s, scores)
    ensures SortedDesc(Take(s, n), scores)
    ensures forall x :: x in s && x !in Take(s, n) ==> |Take(s, n)| == n
    ensures forall x, y :: x in s && x !in Take(s, n) && y in Take(s, n) ==>
              |Take(s, n)| == n && Score(scores, y) >= Score(scores, x)
  {
    var r := Take(s, n);
    forall x, y | x in s && x !in r && y in r
      ensures |r| == n && Score(scores, y) >= Score(scores, x)
    {
      var i :| 0 <= i < |s| && s[i] == x;
      var j :| 0 <= j < |r| && r[j] == y;
      assert i >= |r|;
    }
  }
}

=== FILE: ratings.dfy ===
/**
 * The rating records, the catalog and their inner join (the merged table
 * `df_merged`): sentinel ratings are dropped and every surviving record gets
 * the catalog name of its item.
 */
module Ratings {

  /** The store's rating value for "watched but not rated". */
  const Unrated: int := -1

  /** One line of the rating store. */
  datatype RatingRecord = RatingRecord(userId: int, itemId: int, rating: int)

  /** The catalog: item id to item name (item ids are unique in it). */
  type Catalog = map<int, string>

  /** One row of the merged table: a rating with its item's name. */
  datatype MergedRating = MergedRating(userId: int, name: string, rating: int)

  /** A record reaches the merged table: it is rated and its item is in the catalog. */
  predicate Survives(r: RatingRecord, catalog: Catalog) {
    r.rating != Unrated && r.itemId in catalog
  }

  function Join(r: RatingRecord, catalog: Catalog): MergedRating
    requires r.itemId in catalog
  {
    MergedRating(r.userId, catalog[r.itemId], r.rating)
  }

  /** Filters out sentinel ratings, then inner-joins with the catalog, keeping the store's order. */
  function Merge(ratings: seq<RatingRecord>, catalog: Catalog): (m: seq<MergedRating>)
    ensures |m| <= |ratings|
  {
    if ratings == [] then []
    else
      (if Survives(ratings[0], catalog) then [Join(ratings[0], catalog)] else [])
      + Merge(ratings[1..], catalog)
  }

  /**
   * A row is in the merged table exactly when some record of the store is
   * rated, has its item in the catalog, and carries that item's catalog name.
   */
  lemma {:induction false} MergeMembers(ratings: seq<RatingRecord>, catalog: Catalog)
    ensures forall x :: x in Merge(ratings, catalog) <==>
              exists i :: 0 <= i < |ratings| && Survives(ratings[i], catalog) && x == Join(ratings[i], catalog)
  {
    if ratings != [] {
      MergeMembers(ratings[1..], catalog);
      forall x ensures x in Merge(ratings, catalog) <==>
          exists i :: 0 <= i < |ratings| && Survives(ratings[i], catalog) && x == Join(ratings[i], catalog)
      {
        if x in Merge(ratings[1..], catalog) {
          var i :| 0 <= i < |ratings[1..]| && Survives(ratings[1..][i], catalog) && x == Join(ratings[1..][i], catalog);
          assert ratings[i + 1] == ratings[1..][i];
        }
        if exists i :: 0 <= i < |ratings| && Survives(ratings[i], catalog) && x == Join(ratings[i], catalog) {
          var i :| 0 <= i < |ratings| && Survives(ratings[i], catalog) && x == Join(ratings[i], catalog);
          if i > 0 {
            assert ratings[1..][i - 1] == ratings[i];
          }
        }
      }
    }
  }

  /** No merged row carries the sentinel rating, and each carries its catalog name. */
  lemma MergeSound(ratings: seq<RatingRecord>, catalog: Catalog)
    ensures forall x :: x in Merge(ratings, catalog) ==>
              x.rating != Unrated && exists id :: id in catalog && catalog[id] == x.name
  {
    MergeMembers(ratings, catalog);
    forall x | x in Merge(ratings, catalog)
      ensures x.rating != Unrated && exists id :: id in catalog && catalog[id] == x.name
    {
      var i :| 0 <= i < |ratings| && Survives(ratings[i], catalog) && x == Join(ratings[i], catalog);
      assert catalog[ratings[i].itemId] == x.name;
    }
  }

  /**
   * Rebuilding from the store with one more record appended gives the old
   * merged table followed by that record's row, if it survives.
   */
  lemma {:induction false} MergeAppend(ratings: seq<RatingRecord>, r: RatingRecord, catalog: Catalog)
    ensures Merge(ratings + [r], catalog) ==
            Merge(ratings, catalog) + (if Survives(r, catalog) then [Join(r, catalog)] else [])
  {
    if ratings == [] {
      assert [r][1..] == [];
    } else {
      assert (ratings + [r])[1..] == ratings[1..] + [r];
      MergeAppend(ratings[1..], r, catalog);
    }
  }
}

=== FILE: recommender.dfy ===
/**
 * `get_recommendations` and the `recommend_for_user` endpoint guard: anchor on
 * the user's best-rated item, rank every item by its similarity to the anchor,
 * drop the anchor and everything the user rated, keep the first `numRecs`.
 */
module Recommender {
  import opened Wrappers
  import opened Seqs
  import opened Ranking
  import opened Ratings
  import opened Similarity
  import opened Snapshots

  /** The endpoint's default number of recommendations. */
  const DefaultNumRecs: nat := 5

  /** The user's rows of the merged table, in table order. */
  function UserRows(m: seq<MergedRating>, user: int): (r: seq<MergedRating>)
    ensures forall x :: x in r <==> x in m && x.userId == user
  {
    if m == [] then []
    else (if m[0].userId == user then [m[0]] else []) + UserRows(m[1..], user)
  }

  /** The user rated `name` (with any value). */
  predicate RatedBy(m: seq<MergedRating>, user: int, name: string) {
    exists i :: 0 <= i < |m| && m[i].userId == user && m[i].name == name
  }

  /** The position of the first row holding the highest rating (`idxmax`). */
  function FirstMaxIndex(rows: seq<MergedRating>): (k: nat)
    requires rows != []
    ensures k < |rows|
    ensures forall j :: 0 <= j < |rows| ==> rows[j].rating <= rows[k].rating
    ensures forall j :: 0 <= j < k ==> rows[j].rating < rows[k].rating
  {
    if |rows| == 1 then 0
    else
      var k := FirstMaxIndex(rows[..|rows| - 1]);
      if rows[|rows| - 1].rating > rows[k].rating then |rows| - 1 else k
  }

  /**
   * The anchor: none when the user has no rows; otherwise a name the user
   * rated with their highest rating.
   */
  function Anchor(s: Snapshot, user: int): (a: Option<string>)
    ensures a.None? <==> forall i :: 0 <= i < |s.merged| ==> s.merged[i].userId != user
    ensures a.Some? ==>
              exists i :: (0 <= i < |s.merged| && s.merged[i].userId == user && s.merged[i].name == a.value
                && forall j :: 0 <= j < |s.merged| && s.merged[j].userId == user ==> s.merged[j].rating <= s.merged[i].rating)
  {
    var rows := UserRows(s.merged, user);
    if rows == [] then
      assert forall i :: 0 <= i < |s.merged| ==> s.merged[i] !in rows;
      None
    else
      var k := FirstMaxIndex(rows);
      assert rows[k] in s.merged;
      var i :| 0 <= i < |s.merged| && s.merged[i] == rows[k];
      assert forall j :: 0 <= j < |s.merged| && s.merged[j].userId == user ==> s.merged[j] in rows;
      Some(rows[k].name)
  }

  /** The similarity table's column for `a`: each item's similarity to `a`. */
  function SimColumn(t: SimTable, a: string): map<string, real> {
    map x | x in t && a in t[x] :: t[x][a]
  }

  /** The anchor is a name the user rated. */
  lemma AnchorRated(s: Snapshot, user: int, a: string)
    requires Anchor(s, user) == Some(a)
    ensures RatedBy(s.merged, user, a)
  {
    var i :| (0 <= i < |s.merged| && s.merged[i].userId == user && s.merged[i].name == a
      && forall j :: 0 <= j < |s.merged| && s.merged[j].userId == user ==> s.merged[j].rating <= s.merged[i].rating);
    assert s.merged[i].name == a;
  }

  /** The anchor is an item of the index. */
  lemma AnchorIndexed(s: Snapshot, user: int, a: string)
    requires Valid(s)
    requires Anchor(s, user) == Some(a)
    ensures a in s.items
  {
    AnchorRated(s, user, a);
  }

  /**
   * Reading the anchor's column does not fail: the anchor indexes the table,
   * the column covers exactly the indexed items, and, by symmetry, it is the
   * anchor's own row.
   */
  lemma AnchorColumn(s: Snapshot, user: int, a: string)
    requires Valid(s)
    requires Anchor(s, user) == Some(a)
    ensures a in s.similarity
    ensures SimColumn(s.similarity, a).Keys == Elems(s.items)
    ensures forall x :: Score(SimColumn(s.similarity, a), x) == Sim(s.similarity, a, x)
  {
    AnchorIndexed(s, user, a);
    SquareColumnKeys(s.similarity, Elems(s.items), a);
    SymmetricColumn(s.similarity, a);
  }

  /** A column of a square table covers the whole index. */
  lemma SquareColumnKeys(t: SimTable, keys: set<string>, a: string)
    requires t.Keys == keys && a in keys
    requires forall b :: b in t ==> t[b].Keys == keys
    ensures SimColumn(t, a).Keys == keys
  {
    var col := SimColumn(t, a);
    forall x ensures x in col <==> x in keys {
      if x in t {
        assert a in t[x];
      }
    }
  }

  /** A column of a symmetric table is the row of the same name. */
  lemma SymmetricColumn(t: SimTable, a: string)
    requires forall b, c :: Sim(t, b, c) == Sim(t, c, b)
    ensures forall x :: Score(SimColumn(t, a), x) == Sim(t, a, x)
  {
    forall x ensures Score(SimColumn(t, a), x) == Sim(t, a, x) {
      assert Sim(t, x, a) == Sim(t, a, x);
    }
  }

  /** The names the user rated. */
  function Watched(rows: seq<MergedRating>): set<string> {
    set x | x in rows :: x.name
  }

  /** The anchor's candidates, most similar first, without the anchor and without what the user rated. */
  function Candidates(s: Snapshot, user: int, anchor: string): seq<string> {
    var ranked := SortDesc(s.items, SimColumn(s.similarity, anchor));
    var others := Exclude(ranked, {anchor});
    Exclude(others, Watched(UserRows(s.merged, user)))
  }

  function Recommend(s: Snapshot, user: int, numRecs: nat): seq<string> {
    match Anchor(s, user)
    case None => []
    case Some(anchor) => Take(Candidates(s, user, anchor), numRecs)
  }

  datatype RecError = UserNotFound | NoRecommendations

  /** The endpoint: unknown users and empty recommendation lists are errors. */
  function RecommendForUser(s: Snapshot, user: int): (r: Result<seq<string>, RecError>)
    ensures r == Err(UserNotFound) <==> forall i :: 0 <= i < |s.merged| ==> s.merged[i].userId != user
    ensures r == Err(NoRecommendations) <==>
              (exists i :: 0 <= i < |s.merged| && s.merged[i].userId == user) && Recommend(s, user, DefaultNumRecs) == []
    ensures r.Ok? ==> r.value != [] && r.value == Recommend(s, user, DefaultNumRecs)
  {
    if forall i :: 0 <= i < |s.merged| ==> s.merged[i].userId != user then Err(UserNotFound)
    else
      var recs := Recommend(s, user, DefaultNumRecs);
      if recs == [] then Err(NoRecommendations) else Ok(recs)
  }

  /** The watched set holds exactly the names the user rated. */
  lemma WatchedIsRated(m: seq<MergedRating>, user: int)
    ensures forall x :: x in Watched(UserRows(m, user)) <==> RatedBy(m, user, x)
  {
    var rows := UserRows(m, user);
    forall x ensures x in Watched(rows) <==> RatedBy(m, user, x) {
      if RatedBy(m, user, x) {
        var i :| 0 <= i < |m| && m[i].userId == user && m[i].name == x;
        assert m[i] in rows;
      }
    }
  }

  lemma CandidatesMembers(s: Snapshot, user: int, anchor: string)
    ensures forall x :: x in Candidates(s, user, anchor) <==>
              x in s.items && x != anchor && !RatedBy(s.merged, user, x)
  {
    SortDescMembers(s.items, SimColumn(s.similarity, anchor));
    WatchedIsRated(s.merged, user);
  }

  /** With no rows for the user there is nothing to recommend. */
  lemma RecommendUnknownUser(s: Snapshot, user: int, numRecs: nat)
    requires forall i :: 0 <= i < |s.merged| ==> s.merged[i].userId != user
    ensures Recommend(s, user, numRecs) == []
  {
  }

  /**
   * Recommendations are items of the index that are neither the anchor nor
   * rated by the user, without repetitions, and at most `numRecs` of them.
   */
  lemma RecommendExcludesSeen(s: Snapshot, user: int, numRecs: nat)
    requires Valid(s)
    ensures |Recommend(s, user, numRecs)| <= numRecs
    ensures Distinct(Recommend(s, user, numRecs))
    ensures forall x :: x in Recommend(s, user, numRecs) ==>
              x in s.items && Anchor(s, user) != Some(x) && !RatedBy(s.merged, user, x)
  {
    match Anchor(s, user)
    case None =>
    case Some(anchor) =>
      CandidatesMembers(s, user, anchor);
      CandidatesDistinct(s, user, anchor);
  }

  /** The candidates have no repetitions. */
  lemma CandidatesDistinct(s: Snapshot, user: int, anchor: string)
    requires Valid(s)
    ensures Distinct(Candidates(s, user, anchor))
  {
    var ranked := SortDesc(s.items, SimColumn(s.similarity, anchor));
    SortDescDistinct(s.items, SimColumn(s.similarity, anchor));
    ExcludeDistinct(ranked, {anchor});
    ExcludeDistinct(Exclude(ranked, {anchor}), Watched(UserRows(s.merged, user)));
  }

  /**
   * Recommendations come in non-increasing similarity to the anchor, and they
   * are the best candidates: an unrated item is left out only when `numRecs`
   * items were returned, and it is no more similar than any recommended one.
   */
  lemma RecommendIsTop(s: Snapshot, user: int, numRecs: nat, anchor: string)
    requires Anchor(s, user) == Some(anchor)
    ensures var r := Recommend(s, user, numRecs);
      && (forall i, j :: 0 <= i < j < |r| ==> Sim(s.similarity, r[i], anchor) >= Sim(s.similarity, r[j], anchor))
      && (forall x :: x in s.items && x != anchor && !RatedBy(s.merged, user, x) && x !in r ==> |r| == numRecs)
      && (forall x, y :: x in s.items && x != anchor && !RatedBy(s.merged, user, x) && x !in r && y in r ==>
            |r| == numRecs && Sim(s.similarity, y, anchor) >= Sim(s.similarity, x, anchor))
  {
    var scores := SimColumn(s.similarity, anchor);
    var ranked := SortDesc(s.items, scores);
    ExcludeSorted(ranked, {anchor}, scores);
    ExcludeSorted(Exclude(ranked, {anchor}), Watched(UserRows(s.merged, user)), scores);
    CandidatesMembers(s, user, anchor);
    TakeIsTop(Candidates(s, user, anchor), scores, numRecs);
  }

  /**
   * The endpoint finds nothing to recommend exactly when the user exists and
   * has rated every item of the index.
   */
  lemma NoRecommendationsIff(s: Snapshot, user: int)
    ensures RecommendForUser(s, user) == Err(NoRecommendations) <==>
              (exists i :: 0 <= i < |s.merged| && s.merged[i].userId == user) &&
              forall x :: x in s.items ==> RatedBy(s.merged, user, x)
  {
    if exists i :: 0 <= i < |s.merged| && s.merged[i].userId == user {
      var anchor := Anchor(s, user).value;
      AnchorRated(s, user, anchor);
      CandidatesEmptyIff(s, user, anchor);
    }
  }

  /** With a rated anchor, no candidate is left exactly when every indexed item is rated. */
  lemma CandidatesEmptyIff(s: Snapshot, user: int, anchor: string)
    requires RatedBy(s.merged, user, anchor)
    ensures Candidates(s, user, anchor) == [] <==> forall x :: x in s.items ==> RatedBy(s.merged, user, x)
  {
    CandidatesMembers(s, user, anchor);
    var c := Candidates(s, user, anchor);
    if c != [] {
      assert c[0] in c;
    }
  }
}

=== FILE: sampler.dfy ===
/**
 * `get_utility_matrix_sample`: the utility matrix restricted to the most
 * active users and the most rated items.
 */
module Sampler {
  import opened Seqs
  import opened Ranking
  import opened Ratings
  import opened Utility
  import opened Snapshots

  /**
   * `value_counts()`, tallied one value at a time: the values of `s`, each
   * with the number of times it occurs.
   */
  function Counts<T(==,!new)>(s: seq<T>): (c: map<T, real>)
    ensures forall x :: x in c <==> x in s
    ensures forall x :: Score(c, x) == multiset(s)[x] as real
  {
    if s == [] then map[]
    else
      var c := Counts(s[1..]);
      assert s == [s[0]] + s[1..];
      c[s[0] := Score(c, s[0]) + 1.0]
  }

  /** `value_counts().nlargest(k).index`: the `k` most frequent values, most frequent first. */
  function MostFrequent<T(==,!new)>(s: seq<T>, k: nat): seq<T> {
    Take(SortDesc(Dedup(s), Counts(s)), k)
  }

  /**
   * At most `k` values, each once, each occurring in `s`, and the most
   * frequent ones: a value is left out only when `k` were chosen, and it
   * occurs no more often than any chosen one.
   */
  lemma MostFrequentIsTop<T(!new)>(s: seq<T>, k: nat)
    ensures |MostFrequent(s, k)| <= k
    ensures Distinct(MostFrequent(s, k))
    ensures forall x :: x in MostFrequent(s, k) ==> x in s
    ensures forall x :: x in s && x !in MostFrequent(s, k) ==> |MostFrequent(s, k)| == k
    ensures forall x, y :: x in s && x !in MostFrequent(s, k) && y in MostFrequent(s, k) ==>
              |MostFrequent(s, k)| == k && multiset(s)[y] >= multiset(s)[x]
  {
    var c := Counts(s);
    var sorted := SortDesc(Dedup(s), c);
    SortDescDistinct(Dedup(s), c);
    SortDescMembers(Dedup(s), c);
    TakeIsTop(sorted, c, k);
  }

  /** The merged rows whose user and item were both chosen. */
  function SampleRows(m: seq<MergedRating>, users: seq<int>, names: seq<string>): (r: seq<MergedRating>)
    ensures forall x :: x in r <==> x in m && x.userId in users && x.name in names
  {
    if m == [] then []
    else
      (if m[0].userId in users && m[0].name in names then [m[0]] else [])
      + SampleRows(m[1..], users, names)
  }

  function Sample(s: Snapshot, numUsers: nat, numAnimes: nat): Matrix {
    var users := MostFrequent(UserColumn(s.merged), numUsers);
    var names := MostFrequent(NameColumn(s.merged), numAnimes);
    Pivot(SampleRows(s.merged, users, names))
  }

  lemma SampleColumnLabels(m: seq<MergedRating>, users: seq<int>, names: seq<string>)
    ensures forall c :: c in Pivot(SampleRows(m, users, names)).cols ==>
              c in users && exists i :: 0 <= i < |m| && m[i].userId == c
  {
    var rows := SampleRows(m, users, names);
    forall c | c in Pivot(rows).cols ensures c in users && exists i :: 0 <= i < |m| && m[i].userId == c {
      var i :| 0 <= i < |rows| && rows[i].userId == c;
      assert rows[i] in rows;
      var j :| 0 <= j < |m| && m[j] == rows[i];
    }
  }

  lemma SampleRowLabels(m: seq<MergedRating>, users: seq<int>, names: seq<string>)
    ensures forall n :: n in Pivot(SampleRows(m, users, names)).rows ==>
              n in names && exists i :: 0 <= i < |m| && m[i].name == n
  {
    var rows := SampleRows(m, users, names);
    forall n | n in Pivot(rows).rows ensures n in names && exists i :: 0 <= i < |m| && m[i].name == n {
      var i :| 0 <= i < |rows| && rows[i].name == n;
      assert rows[i] in rows;
      var j :| 0 <= j < |m| && m[j] == rows[i];
    }
  }

  /**
   * The sample has at most `numUsers` columns and `numAnimes` rows, and each
   * of its labels is a user or an item of the merged table.
   */
  lemma SampleBounds(s: Snapshot, numUsers: nat, numAnimes: nat)
    ensures |Sample(s, numUsers, numAnimes).cols| <= numUsers
    ensures |Sample(s, numUsers, numAnimes).rows| <= numAnimes
    ensures forall c :: c in Sample(s, numUsers, numAnimes).cols ==>
              exists i :: 0 <= i < |s.merged| && s.merged[i].userId == c
    ensures forall n :: n in Sample(s, numUsers, numAnimes).rows ==>
              exists i :: 0 <= i < |s.merged| && s.merged[i].name == n
  {
    var users := MostFrequent(UserColumn(s.merged), numUsers);
    var names := MostFrequent(NameColumn(s.merged), numAnimes);
    var u := Pivot(SampleRows(s.merged, users, names));
    MostFrequentIsTop(UserColumn(s.merged), numUsers);
    MostFrequentIsTop(NameColumn(s.merged), numAnimes);
    SampleColumnLabels(s.merged, users, names);
    SampleRowLabels(s.merged, users, names);
    DistinctWithin(u.cols, users);
    DistinctWithin(u.rows, names);
  }

  lemma {:induction false} SampleRowsRatings(m: seq<MergedRating>, users: seq<int>, names: seq<string>, name: string, user: int)
    requires user in users && name in names
    ensures RatingsOf(SampleRows(m, users, names), name, user) == RatingsOf(m, name, user)
  {
    if m != [] {
      SampleRowsRatings(m[1..], users, names, name, user);
      var r := SampleRows(m, users, names);
      if m[0].userId in users && m[0].name in names {
        assert r[0] == m[0] && r[1..] == SampleRows(m[1..], users, names);
      } else {
        assert r == SampleRows(m[1..], users, names);
      }
    }
  }

  /** Every cell of the sample has the value of the same cell of the full utility matrix. */
  lemma SampleCellsAgree(s: Snapshot, numUsers: nat, numAnimes: nat, name: string, user: int)
    requires name in Sample(s, numUsers, numAnimes).rows && user in Sample(s, numUsers, numAnimes).cols
    ensures Cell(Sample(s, numUsers, numAnimes), name, user) == Cell(Pivot(s.merged), name, user)
  {
    var users := MostFrequent(UserColumn(s.merged), numUsers);
    var names := MostFrequent(NameColumn(s.merged), numAnimes);
    var rows := SampleRows(s.merged, users, names);
    var u := Pivot(rows);
    var i :| 0 <= i < |rows| && rows[i].userId == user;
    var j :| 0 <= j < |rows| && rows[j].name == name;
    assert rows[i] in rows && rows[j] in rows;
    SampleRowsRatings(s.merged, users, names, name, user);
    PivotCell(rows, name, user);
    PivotCell(s.merged, name, user);
  }
}

=== FILE: scenario.dfy ===
/**
 * A worked example: users 1 and 2, items 10, 20 and 30 named A, B and C.
 * User 1 rated A with 8 and B with 3; user 2 rated A with 5 and C with 9.
 */
module Scenario {
  import opened Wrappers
  import opened Seqs
  import opened Ratings
  import opened Utility
  import opened Snapshots
  import opened Recommender

  function Store(): seq<RatingRecord> {
    [RatingRecord(1, 10, 8), RatingRecord(1, 20, 3), RatingRecord(2, 10, 5), RatingRecord(2, 30, 9)]
  }

  function Names(): Catalog {
    map[10 := "A", 20 := "B", 30 := "C"]
  }

  function Table(): seq<MergedRating> {
    [MergedRating(1, "A", 8), MergedRating(1, "B", 3), MergedRating(2, "A", 5), MergedRating(2, "C", 9)]
  }

  lemma ScenarioMerge()
    ensures Merge(Store(), Names()) == Table()
  {
    var s := Store();
    assert Merge(s[3..], Names()) == [MergedRating(2, "C", 9)];
    assert s[2..][1..] == s[3..];
    assert Merge(s[2..], Names()) == Table()[2..];
    assert s[1..][1..] == s[2..];
    assert Merge(s[1..], Names()) == Table()[1..];
  }

  lemma DedupNames()
    ensures Dedup(["A", "B", "A", "C"]) == ["A", "B", "C"]
  {
    var n := ["A", "B", "A", "C"];
    assert n[..3] == ["A", "B", "A"] && n[..3][..2] == ["A", "B"] && n[..3][..2][..1] == ["A"];
    assert Dedup(n[..3][..2][..1]) == ["A"];
    assert Dedup(n[..3][..2]) == ["A", "B"];
    assert Dedup(n[..3]) == ["A", "B"];
  }

  lemma DedupUsers()
    ensures Dedup([1, 1, 2, 2]) == [1, 2]
  {
    var u := [1, 1, 2, 2];
    assert u[..3] == [1, 1, 2] && u[..3][..2] == [1, 1] && u[..3][..2][..1] == [1];
    assert Dedup(u[..3][..2][..1]) == [1];
    assert Dedup(u[..3][..2]) == [1];
    assert Dedup(u[..3]) == [1, 2];
  }

  /** The matrix has rows A, B, C and columns 1, 2. */
  lemma ScenarioMatrix()
    ensures Pivot(Merge(Store(), Names())).rows == ["A", "B", "C"]
    ensures Pivot(Merge(Store(), Names())).cols == [1, 2]
  {
    ScenarioMerge();
    assert NameColumn(Table()) == ["A", "B", "A", "C"];
    assert UserColumn(Table()) == [1, 1, 2, 2];
    DedupNames();
    DedupUsers();
  }

  lemma ScenarioUserRows()
    ensures UserRows(Table(), 1) == [Table()[0], Table()[1]]
  {
    var m := Table();
    assert m[2..][1..] == m[3..] && m[3..][1..] == [];
    assert UserRows(m[3..], 1) == [];
    assert UserRows(m[2..], 1) == [];
    assert m[1..][1..] == m[2..];
  }

  /** Whatever the square root, user 1's anchor is A, which they rated 8, their highest. */
  lemma ScenarioAnchor(sqrt: real -> real)
    ensures Anchor(Build(Store(), Names(), sqrt), 1) == Some("A")
  {
    ScenarioMerge();
    ScenarioUserRows();
    var m := Table();
    assert FirstMaxIndex([m[0], m[1]]) == 0;
  }

  /**
   * Asked for two items for user 1, the engine can only offer C: A and B are
   * already rated.
   */
  lemma ScenarioRecommend(sqrt: real -> real)
    ensures Recommend(Build(Store(), Names(), sqrt), 1, 2) == ["C"]
  {
    ScenarioMerge();
    ScenarioMatrix();
    ScenarioAnchor(sqrt);
    ScenarioRated();
    ScenarioRecommendFrom(Store(), Names(), sqrt);
  }

  lemma ScenarioRecommendFrom(ratings: seq<RatingRecord>, catalog: Catalog, sqrt: real -> real)
    requires Merge(ratings, catalog) == Table()
    requires Pivot(Merge(ratings, catalog)).rows == ["A", "B", "C"]
    requires Anchor(Build(ratings, catalog, sqrt), 1) == Some("A")
    requires RatedBy(Table(), 1, "A") && RatedBy(Table(), 1, "B") && !RatedBy(Table(), 1, "C")
    ensures Recommend(Build(ratings, catalog, sqrt), 1, 2) == ["C"]
  {
    var s := Build(ratings, catalog, sqrt);
    assert s.merged == Table();
    assert s.items == ["A", "B", "C"];
    forall x ensures x in s.items <==> x == "A" || x == "B" || x == "C" {
      if x in s.items {
        var i :| 0 <= i < 3 && s.items[i] == x;
        assert i == 0 || i == 1 || i == 2;
      }
      assert s.items[0] == "A" && s.items[1] == "B" && s.items[2] == "C";
    }
    BuildValid(ratings, catalog, sqrt);
    RecommendOnlyC(s);
  }

  lemma RecommendOnlyC(s: Snapshot)
    requires Valid(s)
    requires Anchor(s, 1) == Some("A")
    requires RatedBy(s.merged, 1, "A") && RatedBy(s.merged, 1, "B") && !RatedBy(s.merged, 1, "C")
    requires forall x :: x in s.items <==> x == "A" || x == "B" || x == "C"
    ensures Recommend(s, 1, 2) == ["C"]
  {
    SingleCandidate(s, 1, "A", "C");
  }

  lemma SingleCandidate(s: Snapshot, user: int, anchor: string, x: string)
    requires Valid(s)
    requires x in s.items && x != anchor && !RatedBy(s.merged, user, x)
    requires forall y :: y in s.items && y != anchor && !RatedBy(s.merged, user, y) ==> y == x
    ensures Candidates(s, user, anchor) == [x]
  {
    CandidatesMembers(s, user, anchor);
    var c := Candidates(s, user, anchor);
    CandidatesDistinct(s, user, anchor);
    DistinctWithin(c, [x]);
    assert x in c;
  }

  lemma ScenarioRated()
    ensures RatedBy(Table(), 1, "A") && RatedBy(Table(), 1, "B") && !RatedBy(Table(), 1, "C")
  {
    var m := Table();
    assert m[0].userId == 1 && m[0].name == "A";
    assert m[1].userId == 1 && m[1].name == "B";
    forall i | 0 <= i < |m| ensures !(m[i].userId == 1 && m[i].name == "C") {
      assert i == 0 || i == 1 || i == 2 || i == 3;
    }
  }
}

=== FILE: seqs.dfy ===
/**
 * Sequence helpers that stand for the table operations of the engine:
 * `unique` (Dedup), boolean-mask filtering (Exclude, Select), `head` (Take)
 * and `sum` (Sum).
 */
module Seqs {

  /** No element occurs twice. */
  predicate Distinct<T(==)>(s: seq<T>) {
    forall i, j :: 0 <= i < j < |s| ==> s[i] != s[j]
  }

  /** The elements of `s` as a set. */
  function Elems<T>(s: seq<T>): set<T> {
    set x | x in s
  }

  /** The elements of `s`, each once, in order of first appearance. */
  function Dedup<T(==,!new)>(s: seq<T>): (r: seq<T>)
    ensures Distinct(r)
    ensures forall x :: x in r <==> x in s
    ensures |r| <= |s|
  {
    if s == [] then []
    else
      var init, last := s[..|s| - 1], s[|s| - 1];
      assert s == init + [last];
      var t := Dedup(init);
      if last in t then t else t + [last]
  }

  /** The elements of `s` that are not in `xs`, in their original order. */
  function Exclude<T(==,!new)>(s: seq<T>, xs: set<T>): (r: seq<T>)
    ensures forall x :: x in r <==> x in s && x !in xs
    ensures |r| <= |s|
  {
    if s == [] then []
    else (if s[0] in xs then [] else [s[0]]) + Exclude(s[1..], xs)
  }

  /** The elements of `s` that are in `xs`, in their original order. */
  function Select<T(==,!new)>(s: seq<T>, xs: set<T>): (r: seq<T>)
    ensures forall x :: x in r <==> x in s && x in xs
    ensures |r| <= |s|
  {
    if s == [] then []
    else (if s[0] in xs then [s[0]] else []) + Select(s[1..], xs)
  }

  /** The first `n` elements of `s`, or all of `s` when it is shorter. */
  function Take<T>(s: seq<T>, n: nat): (r: seq<T>)
    ensures |r| <= n && |r| <= |s|
    ensures r == s[..|r|]
    ensures |s| <= n ==> r == s
    ensures n < |s| ==> |r| == n
  {
    if n < |s| then s[..n] else s
  }

  function Sum(s: seq<int>): int {
    if s == [] then 0 else s[0] + Sum(s[1..])
  }

  lemma {:induction false} ExcludeDistinct<T(!new)>(s: seq<T>, xs: set<T>)
    requires Distinct(s)
    ensures Distinct(Exclude(s, xs))
  {
    if s != [] {
      ExcludeDistinct(s[1..], xs);
      assert s[0] !in s[1..];
    }
  }

  /** A sequence without repetitions has as many elements as its set. */
  lemma {:induction false} DistinctCard<T>(s: seq<T>)
    requires Distinct(s)
    ensures |Elems(s)| == |s|
  {
    if s != [] {
      DistinctCard(s[1..]);
      assert Elems(s) == Elems(s[1..]) + {s[0]};
      assert s[0] !in s[1..];
    }
  }

  /** A sequence has at least as many elements as its set. */
  lemma {:induction false} ElemsCard<T>(s: seq<T>)
    ensures |Elems(s)| <= |s|
  {
    if s != [] {
      ElemsCard(s[1..]);
      assert Elems(s) == Elems(s[1..]) + {s[0]};
    }
  }

  /** A repetition-free sequence drawn from the elements of `t` is no longer than `t`. */
  lemma DistinctWithin<T(!new)>(r: seq<T>, t: seq<T>)
    requires Distinct(r)
    requires forall x :: x in r ==> x in t
    ensures |r| <= |t|
  {
    DistinctCard(r);
    ElemsCard(t);
    SubsetCard(Elems(r), Elems(t));
  }

  lemma {:induction false} SubsetCard<T>(a: set<T>, b: set<T>)
    requires a <= b
    ensures |a| <= |b|
    decreases a
  {
    if a != {} {
      var x :| x in a;
      SubsetCard(a - {x}, b - {x});
    }
  }

  /** Every element of a sequence is at least `lo`, so the sum is at least `lo` per element. */
  lemma {:induction false} SumLowerBound(s: seq<int>, lo: int)
    requires forall i :: 0 <= i < |s| ==> s[i] >= lo
    ensures Sum(s) >= lo * |s|
  {
    if s != [] {
      SumLowerBound(s[1..], lo);
    }
  }
}

=== FILE: service.dfy ===
/**
 * The process-wide state of the backend: the two dataset files and the model
 * derived from them, reloaded at startup and after every appended rating.
 */
module Service {
  import opened Wrappers
  import opened Ratings
  import opened Snapshots
  import opened Recommender

  /**
   * The rating store file: missing, holding records under its header row, or
   * created by an append and so lacking the header row. A header-less file
   * never parses into records: its first line is read as the header, so it
   * has no `rating` column and every load fails.
   */
  datatype RatingStore = Missing | Headerless | Records(records: seq<RatingRecord>)

  /** The store after one record is appended to it. */
  function Appended(store: RatingStore, r: RatingRecord): (s: RatingStore)
    ensures s.Records? <==> store.Records?
    ensures s.Records? ==> s.records == store.records + [r] && s.records[|s.records| - 1] == r
    ensures !store.Records? ==> s == Headerless
  {
    match store
    case Missing => Headerless
    case Headerless => Headerless
    case Records(rs) => Records(rs + [r])
  }

  class Engine {
    /** The rating store. */
    var ratingFile: RatingStore
    /** The catalog; None when its file does not exist. */
    var animeFile: Option<Catalog>
    /** `df_merged` and `item_similarity_df`; None until a load succeeds. */
    var model: Option<Snapshot>
    /** The square root the similarity computation uses. */
    const sqrt: real -> real

    ghost predicate Valid()
      reads this
    {
      model.Some? ==> Snapshots.Valid(model.value)
    }

    /**
     * Startup: the files as found, and a first load from them. In the source
     * a failed startup load raises out of the startup event, so the service
     * never starts serving; `model == None` stands for that process.
     */
    constructor (ratings: RatingStore, anime: Option<Catalog>, sqrt: real -> real)
      ensures Valid()
      ensures ratingFile == ratings && animeFile == anime && this.sqrt == sqrt
      ensures model == if ratings.Records? && anime.Some? then Some(Build(ratings.records, anime.value, sqrt)) else None
    {
      ratingFile := ratings;
      animeFile := anime;
      this.sqrt := sqrt;
      model := None;
      new;
      var _ := Reload();
    }

    /**
     * `load_and_process_data`: when both files exist and the store parses,
     * the model is replaced by one built from their whole contents; otherwise
     * it fails before touching the model.
     */
    method Reload() returns (ok: bool)
      requires Valid()
      modifies this`model
      ensures Valid()
      ensures ok <==> ratingFile.Records? && animeFile.Some?
      ensures model == if ok then Some(Build(ratingFile.records, animeFile.value, sqrt)) else old(model)
    {
      if ratingFile.Records? && animeFile.Some? {
        BuildValid(ratingFile.records, animeFile.value, sqrt);
        model := Some(Build(ratingFile.records, animeFile.value, sqrt));
        ok := true;
      } else {
        ok := false;
      }
    }

    /**
     * `add_rating`: the record is appended to the rating store, then the
     * model is reloaded from the whole store. The append creates a missing
     * store without its header row, so the reload fails, keeping the old
     * model, unless the store already held records and the catalog exists.
     */
    method AddRating(r: RatingRecord) returns (ok: bool)
      requires Valid()
      modifies this`ratingFile, this`model
      ensures Valid()
      ensures ratingFile == Appended(old(ratingFile), r)
      ensures ok <==> old(ratingFile).Records? && animeFile.Some?
      ensures model == if ok then Some(Build(old(ratingFile).records + [r], animeFile.value, sqrt)) else old(model)
    {
      ratingFile := Appended(ratingFile, r);
      ok := Reload();
    }
  }

  /**
   * After a rated record of a catalog item is appended and the model rebuilt,
   * its user is known: the endpoint no longer answers "user not found".
   */
  lemma AddedUserIsFound(ratings: seq<RatingRecord>, r: RatingRecord, catalog: Catalog, sqrt: real -> real)
    requires Survives(r, catalog)
    ensures RecommendForUser(Build(ratings + [r], catalog, sqrt), r.userId) != Err(UserNotFound)
  {
    MergeAppend(ratings, r, catalog);
    var m := Build(ratings + [r], catalog, sqrt).merged;
    assert m[|m| - 1].userId == r.userId;
  }
}

=== FILE: similarity.dfy ===
/**
 * Item-item cosine similarity over the rows of the utility matrix, computed
 * the way `sklearn.metrics.pairwise.cosine_similarity` does: each row is
 * divided by its Euclidean norm, a zero norm being replaced by 1, and the
 * normalised rows are multiplied. The square root is a parameter; floating
 * point rounding is not modelled.
 */
module Similarity {
  import opened Seqs
  import opened Utility

  /** Item name to item name to similarity (`item_similarity_df`). */
  type SimTable = map<string, map<string, real>>

  /** The value of a row at a column; absent cells are 0, as the pivot fills them. */
  function At(row: map<int, real>, c: int): real {
    if c in row then row[c] else 0.0
  }

  function RowOf(u: Matrix, name: string): map<int, real> {
    if name in u.cells then u.cells[name] else map[]
  }

  /** The dot product of two rows over the given columns. */
  function Dot(cols: seq<int>, a: map<int, real>, b: map<int, real>): real {
    if cols == [] then 0.0 else At(a, cols[0]) * At(b, cols[0]) + Dot(cols[1..], a, b)
  }

  /** The norm used to scale a row: sqrt of its dot product with itself, or 1 when that is 0. */
  function Norm(cols: seq<int>, a: map<int, real>, sqrt: real -> real): (r: real)
    ensures r != 0.0
  {
    var s := sqrt(Dot(cols, a, a));
    if s == 0.0 then 1.0 else s
  }

  function Cosine(cols: seq<int>, a: map<int, real>, b: map<int, real>, sqrt: real -> real): real {
    var na, nb := Norm(cols, a, sqrt), Norm(cols, b, sqrt);
    assert na * nb != 0.0;
    Dot(cols, a, b) / (na * nb)
  }

  lemma {:induction false} DotSymmetric(cols: seq<int>, a: map<int, real>, b: map<int, real>)
    ensures Dot(cols, a, b) == Dot(cols, b, a)
  {
    if cols != [] {
      DotSymmetric(cols[1..], a, b);
    }
  }

  /** Cosine similarity does not depend on the order of its arguments. */
  lemma CosineSymmetric(cols: seq<int>, a: map<int, real>, b: map<int, real>, sqrt: real -> real)
    ensures Cosine(cols, a, b, sqrt) == Cosine(cols, b, a, sqrt)
  {
    DotSymmetric(cols, a, b);
    var na, nb := Norm(cols, a, sqrt), Norm(cols, b, sqrt);
    assert na * nb == nb * na;
  }

  lemma {:induction false} DotWithZeroRow(cols: seq<int>, a: map<int, real>, b: map<int, real>)
    requires forall k :: 0 <= k < |cols| ==> At(a, cols[k]) == 0.0
    ensures Dot(cols, a, b) == 0.0
  {
    if cols != [] {
      DotWithZeroRow(cols[1..], a, b);
    }
  }

  /**
   * A row of zeros is similar to nothing, itself included: its diagonal entry
   * is 0, not 1.
   */
  lemma ZeroRowSimilarity(cols: seq<int>, a: map<int, real>, b: map<int, real>, sqrt: real -> real)
    requires forall k :: 0 <= k < |cols| ==> At(a, cols[k]) == 0.0
    ensures Cosine(cols, a, b, sqrt) == 0.0 && Cosine(cols, b, a, sqrt) == 0.0
  {
    DotWithZeroRow(cols, a, b);
    CosineSymmetric(cols, a, b, sqrt);
  }

  /**
   * When the square root is exact at the row's squared norm, a row with a
   * non-zero squared norm has self-similarity 1.
   */
  lemma SelfSimilarity(cols: seq<int>, a: map<int, real>, sqrt: real -> real)
    requires Dot(cols, a, a) != 0.0
    requires sqrt(Dot(cols, a, a)) * sqrt(Dot(cols, a, a)) == Dot(cols, a, a)
    ensures Cosine(cols, a, a, sqrt) == 1.0
  {
    var d, s := Dot(cols, a, a), sqrt(Dot(cols, a, a));
    assert s != 0.0;
    assert Norm(cols, a, sqrt) == s;
    var p := s * s;
    assert Cosine(cols, a, a, sqrt) == d / (Norm(cols, a, sqrt) * Norm(cols, a, sqrt));
    assert Norm(cols, a, sqrt) * Norm(cols, a, sqrt) == p;
    DivideBySelf(d, p);
  }

  lemma DivideBySelf(x: real, y: real)
    requires x == y && y != 0.0
    ensures x / y == 1.0
  {
  }

  /** The similarity of every pair of rows of `u`. */
  function SimilarityTable(u: Matrix, sqrt: real -> real): (t: SimTable)
    ensures t.Keys == Elems(u.rows)
    ensures forall a :: a in t ==> t[a].Keys == Elems(u.rows)
  {
    map a | a in u.rows :: map b | b in u.rows :: Cosine(u.cols, RowOf(u, a), RowOf(u, b), sqrt)
  }

  /** A table lookup, 0 outside the table. */
  function Sim(t: SimTable, a: string, b: string): real {
    if a in t && b in t[a] then t[a][b] else 0.0
  }

  /** The similarity table is symmetric. */
  lemma SimilarityTableSymmetric(u: Matrix, sqrt: real -> real, a: string, b: string)
    ensures Sim(SimilarityTable(u, sqrt), a, b) == Sim(SimilarityTable(u, sqrt), b, a)
  {
    CosineSymmetric(u.cols, RowOf(u, a), RowOf(u, b), sqrt);
  }
}

=== FILE: snapshots.dfy ===
/**
 * The engine's derived state, rebuilt as a whole from the rating store and
 * the catalog: the merged table (`df_merged`) and the item-item similarity
 * table (`item_similarity_df`) with its index order.
 */
module Snapshots {
  import opened Seqs
  import opened Ratings
  import opened Utility
  import opened Similarity

  datatype Snapshot = Snapshot(merged: seq<MergedRating>, items: seq<string>, similarity: SimTable)

  /** `load_and_process_data` without its file reads: merge, pivot, similarity. */
  function Build(ratings: seq<RatingRecord>, catalog: Catalog, sqrt: real -> real): Snapshot {
    var m := Merge(ratings, catalog);
    var u := Pivot(m);
    Snapshot(m, u.rows, SimilarityTable(u, sqrt))
  }

  /**
   * What every built snapshot satisfies: the index lists each merged name
   * once and nothing else, the table is indexed by it, and it is symmetric.
   */
  ghost predicate Valid(s: Snapshot) {
    && Distinct(s.items)
    && (forall n :: n in s.items <==> exists i :: 0 <= i < |s.merged| && s.merged[i].name == n)
    && s.similarity.Keys == Elems(s.items)
    && (forall a :: a in s.similarity ==> s.similarity[a].Keys == Elems(s.items))
    && (forall a, b :: Sim(s.similarity, a, b) == Sim(s.similarity, b, a))
  }

  lemma BuildValid(ratings: seq<RatingRecord>, catalog: Catalog, sqrt: real -> real)
    ensures Valid(Build(ratings, catalog, sqrt))
  {
    var u := Pivot(Merge(ratings, catalog));
    forall a, b ensures Sim(SimilarityTable(u, sqrt), a, b) == Sim(SimilarityTable(u, sqrt), b, a) {
      SimilarityTableSymmetric(u, sqrt, a, b);
    }
  }
}

=== FILE: utility.dfy ===
/**
 * The utility matrix: `pivot_table(index='name', columns='user_id',
 * values='rating').fillna(0)` over merged rows. Rows are item names, columns
 * user ids; a cell is the mean of that user's ratings of that item (the
 * pivot's default aggregation, which only matters for duplicate ratings), or 0.
 */
module Utility {
  import opened Seqs
  import opened Ratings

  /** The name column of the merged table. */
  function NameColumn(m: seq<MergedRating>): (r: seq<string>)
    ensures |r| == |m| && forall i :: 0 <= i < |m| ==> r[i] == m[i].name
    ensures forall n :: n in r <==> exists i :: 0 <= i < |m| && m[i].name == n
  {
    var r := seq(|m|, i requires 0 <= i < |m| => m[i].name);
    assert forall i :: 0 <= i < |m| ==> r[i] == m[i].name;
    r
  }

  /** The user_id column of the merged table. */
  function UserColumn(m: seq<MergedRating>): (r: seq<int>)
    ensures |r| == |m| && forall i :: 0 <= i < |m| ==> r[i] == m[i].userId
    ensures forall c :: c in r <==> exists i :: 0 <= i < |m| && m[i].userId == c
  {
    var r := seq(|m|, i requires 0 <= i < |m| => m[i].userId);
    assert forall i :: 0 <= i < |m| ==> r[i] == m[i].userId;
    r
  }

  /** The ratings `user` gave `name`, in table order. */
  function RatingsOf(m: seq<MergedRating>, name: string, user: int): seq<int> {
    if m == [] then []
    else
      (if m[0].name == name && m[0].userId == user then [m[0].rating] else [])
      + RatingsOf(m[1..], name, user)
  }

  function Mean(rs: seq<int>): real {
    if rs == [] then 0.0 else (Sum(rs) as real) / (|rs| as real)
  }

  /** A dense item x user table. */
  datatype Matrix = Matrix(rows: seq<string>, cols: seq<int>, cells: map<string, map<int, real>>)

  /** The value at (`name`, `user`), 0 outside the table. */
  function Cell(u: Matrix, name: string, user: int): real {
    if name in u.cells && user in u.cells[name] then u.cells[name][user] else 0.0
  }

  /**
   * Pivots the merged rows. The row labels are exactly the distinct names and
   * the column labels exactly the distinct user ids of `m`, each once, and
   * every row has a cell for every column.
   */
  function Pivot(m: seq<MergedRating>): (u: Matrix)
    ensures Distinct(u.rows) && Distinct(u.cols)
    ensures forall n :: n in u.rows <==> exists i :: 0 <= i < |m| && m[i].name == n
    ensures forall c :: c in u.cols <==> exists i :: 0 <= i < |m| && m[i].userId == c
    ensures forall n :: n in u.rows ==> n in u.cells && u.cells[n].Keys == Elems(u.cols)
    ensures u.cells.Keys == Elems(u.rows)
  {
    var rows := Dedup(NameColumn(m));
    var cols := Dedup(UserColumn(m));
    Matrix(rows, cols, map n | n in rows :: map c | c in cols :: Mean(RatingsOf(m, n, c)))
  }

  lemma {:induction false} RatingsOfEmpty(m: seq<MergedRating>, name: string, user: int)
    ensures RatingsOf(m, name, user) == [] <==>
            forall i :: 0 <= i < |m| ==> !(m[i].name == name && m[i].userId == user)
  {
    if m != [] {
      RatingsOfEmpty(m[1..], name, user);
      assert forall i :: 1 <= i < |m| ==> m[i] == m[1..][i - 1];
    }
  }

  lemma {:induction false} RatingsOfPositive(m: seq<MergedRating>, name: string, user: int)
    requires forall i :: 0 <= i < |m| ==> m[i].rating > 0
    ensures forall k :: 0 <= k < |RatingsOf(m, name, user)| ==> RatingsOf(m, name, user)[k] > 0
  {
    if m != [] {
      RatingsOfPositive(m[1..], name, user);
    }
  }

  lemma {:induction false} SumPositive(s: seq<int>)
    requires s != [] && forall k :: 0 <= k < |s| ==> s[k] > 0
    ensures Sum(s) > 0
  {
    if |s| > 1 {
      SumPositive(s[1..]);
    }
  }

  /** Every cell, inside the labels or not, is the mean of that user's ratings of that item. */
  lemma PivotCell(m: seq<MergedRating>, name: string, user: int)
    ensures Cell(Pivot(m), name, user) == Mean(RatingsOf(m, name, user))
  {
    var u := Pivot(m);
    if !(name in u.rows && user in u.cols) {
      RatingsOfEmpty(m, name, user);
    }
  }

  lemma MeanPositive(rs: seq<int>)
    requires rs != [] && forall k :: 0 <= k < |rs| ==> rs[k] > 0
    ensures Mean(rs) > 0.0
  {
    SumPositive(rs);
    var a, b := Sum(rs) as real, |rs| as real;
    assert a > 0.0 && b > 0.0;
  }

  /** A cell nobody filled is 0. */
  lemma PivotUnratedCellIsZero(m: seq<MergedRating>, name: string, user: int)
    requires forall i :: 0 <= i < |m| ==> !(m[i].name == name && m[i].userId == user)
    ensures Cell(Pivot(m), name, user) == 0.0
  {
    RatingsOfEmpty(m, name, user);
    PivotCell(m, name, user);
  }

  /**
   * With positive ratings (the store's scale starts at 1), a cell of the
   * matrix is 0 exactly when that user has no rating for that item.
   */
  lemma PivotCellZeroIff(m: seq<MergedRating>, name: string, user: int)
    requires forall i :: 0 <= i < |m| ==> m[i].rating > 0
    ensures Cell(Pivot(m), name, user) == 0.0 <==>
            forall i :: 0 <= i < |m| ==> !(m[i].name == name && m[i].userId == user)
  {
    RatingsOfEmpty(m, name, user);
    PivotCell(m, name, user);
    var rs := RatingsOf(m, name, user);
    if rs != [] {
      RatingsOfPositive(m, name, user);
      MeanPositive(rs);
    }
  }
}

=== FILE: wrappers.dfy ===
/** Option and Result values for the engine's absent data and error returns. */
module Wrappers {

  datatype Option<+T> = None | Some(value: T)

  datatype Result<+T, +E> = Ok(value: T) | Err(error: E)
}
